=== FILE: README.md ===
# Pokedex record and cache model

A Dafny model of the pokedex service: the `Pokemon` record of `pokemon/models.py`,
and the two request handlers of `pokemon/views.py` that drive it against the
key-value cache.

The record has five fields. The model covers how it is:

- built from the species data of the remote reference API, with a randomly chosen
  English flavour text as its description;
- written to and read back from the cache;
- shaped into the response dictionary;
- translated once, in the Yoda or Shakespeare style.

Modules (one file each):

- `Wrappers`: `Option` (Python's `None` versus a value) and `Result` (a value or the exception raised).
- `Records`: the record, the style rule, the stored dictionary (`pokemon_to_dict`), and its decoding.
  The cache-hit path decodes with `Pokemon(**json.loads(...))`. `pokemon_from_json` is modelled as
  a decoder building a fresh record, reading the legendary flag under `isLegendary` as its body and the stored form do.
  This module also holds the response dictionary (`serialize`).
- `Species`: English flavour-text selection, `create_pokemon`, and `create_pokemon_from_remote` over
  the species lookup (`get_remote_pokemon`). The lookup is the oracle `SpeciesApi`, which answers
  None where the request raised an HTTP error.
- `Translation`: `translate_description` over an arbitrary translator oracle `(text, style) -> Option<string>`.
  It also models `get_translation` twice: as written and as intended (see "## Findings").
- `Cache`: the store as `map<string, Dict>`, `save` and `get`. The predicate `Canonical` says every
  entry is what `save` would write under its key. Every operation preserves it.
- `Views`: both handlers, as functions from a store to a response plus the next store.

Modelling choices:

- **Falsy translations.** Python truthiness is explicit. A translation of `""` counts as absent
  everywhere (`Truthy`, `HasTranslation`). `pokemon_to_dict` therefore drops it, and the stored form
  round-trips exactly when the translation is not `""` (`Records.RoundTrip`).
- **Random choice.** `random.choice` becomes a parameter `pick`. It selects the English entry at
  `pick` modulo their number, and every English text is reachable.
- **Uncaught exceptions.** Each becomes a `Failure` value: no English text, a null habitat, or a
  stored dictionary the constructor rejects. The views answer one with status 500 and leave the
  store unchanged.
- **Serializer check.** The check in the views is an abstract `Validator` on the response dictionary.

### Source behaviour worth noting

- `save` keys the entry by the record's own `name`, not by the requested name. On a miss, the entry
  is written under the name the species data carries (`Views.OnlyOneEntryChanges`).
- A null or missing habitat object raises; only a missing, null or empty habitat name becomes `""`.
- The translate view's response has the same four keys as the plain one.
- The tests of `pokemon_from_json` call it without an instance, so the dictionary binds to `self` and
  the call raises a TypeError for the missing `json_data` before the body runs. They also pass the flag
  as `is_legendary`: the body would raise a KeyError on such a dictionary, and `Records.FromJson`
  rejects it too (`Records.FromJsonRejectsSnakeCaseFlag`).
- Because the response form prefers a truthy translation, the plain retrieve view also answers with
  the translated text once a translate request has stored one (`Views.RetrieveShowsStoredTranslation`).
- The species lookup reads as "not found" on an HTTP error, or on an empty body (see "## Left out").
  Other request errors propagate.

## Model

| member | source | states |
|---|---|---|
| Records.StyleOf | pokemon/models.py:35-38 | Yoda style exactly when the habitat is "cave" or the record is legendary, Shakespeare otherwise |
| Records.StyleDependsOnlyOnHabitatAndLegendary | pokemon/models.py:35-38 | the style rule reads no field but habitat and the legendary flag |
| Records.Normalize | pokemon/models.py:148-149 | a falsy translation becomes None; every other field and a usable translation are kept |
| Records.ToDict | pokemon/models.py:137-151 | the stored form has exactly the four base keys, plus "translation" only when the translation is truthy, holding the record's values |
| Records.Decode | pokemon/models.py:135 | keyword construction succeeds exactly for dictionaries whose keys are among the five parameters, with all four required ones present and well typed, and every field takes the dictionary's value (translation None when absent or null) |
| Records.FromJson | pokemon/models.py:164-176 | the intended decoder succeeds exactly when the four required keys (legendary flag under "isLegendary") are present and well typed, and every field takes the dictionary's value (translation None when absent or null) |
| Records.Serialize | pokemon/models.py:153-162 | the response form has exactly the four base keys, no translation key, and shows the translation as description when it is truthy |
| Records.DecodeToDict | pokemon/models.py:135 | decoding the stored form, by either decoder, gives the record with a falsy translation read as None |
| Records.RoundTrip | pokemon/models.py:137-151 | decode after encode is the identity exactly when the translation is not the empty string |
| Records.ToDictDecode | pokemon/models.py:135 | encoding a decoded dictionary reproduces it exactly when its translation, if present, is a non-empty string |
| Records.DecodersAgree | pokemon/models.py:164-176 | the strict and the intended decoder read the same record wherever the strict one accepts, and agree on dictionaries with no extra keys |
| Records.FromJsonIgnoresExtraKeys | pokemon/models.py:164-176 | adding a key the record does not have leaves the intended decoder's result unchanged |
| Records.FromJsonRejectsSnakeCaseFlag | pokemon/tests.py:268-274 | the tests' dictionary, with the flag under "is_legendary", is rejected by the decoder as by the method body |
| Records.SerializeFromToDict | pokemon/models.py:142-160 | the response form equals the stored form without translation, and otherwise the stored form with the translation moved into the description |
| Species.EnglishEntries | pokemon/models.py:80-85 | the filter keeps exactly the entries whose language name is "en", each as many times as it occurs |
| Species.RetrieveDescription | pokemon/models.py:74-86 | fails with the empty-choice error exactly when no entry is English, otherwise returns the text of some English entry |
| Species.ChoiceWithinRange | pokemon/models.py:85 | a choice below the number of English entries selects the English entry at that position |
| Species.EveryEnglishTextCanBeChosen | pokemon/models.py:85 | every English text is the result for some choice |
| Species.SharedEnglishTextIsChosen | pokemon/tests.py:128-164 | when all English entries share one text, that text is returned for every choice |
| Species.HabitatName | pokemon/models.py:112 | the habitat name when it is truthy, "" when it is missing, null or empty |
| Species.CreatePokemon | pokemon/models.py:101-117 | succeeds exactly when an English text exists and the habitat object is present; copies name and legendary flag, takes the habitat name or "", and carries the translation only when truthy; description failure comes first |
| Species.CreatedDescriptionIsEnglish | pokemon/models.py:108-111 | a created record's description is the text of an English entry of its species data |
| Species.CreateFromRemote | pokemon/models.py:89-99 | None when the species lookup failed, otherwise the outcome of building the record from the species data |
| Species.FoundRecordComesFromLookup | pokemon/models.py:94-99 | a record found remotely carries the looked-up species' name and legendary flag and one of its English texts |
| Translation.TranslateDescription | pokemon/models.py:178-190 | a truthy translation is kept; otherwise the translation becomes the translator's answer for the description in the record's style; no other field changes |
| Translation.TranslateIsIdempotent | pokemon/models.py:183-184 | once a translation has been obtained, a second call with any translator changes nothing |
| Translation.TranslatedRecordIgnoresTranslator | pokemon/models.py:183-184 | a translated record does not consult the translator |
| Translation.TranslatorConsultedOnce | pokemon/models.py:185-190 | an untranslated record's result depends only on the translator's answer for its description in its style |
| Translation.TranslateKeepsStyle | pokemon/models.py:178-190 | translating does not change the style the record calls for |
| Translation.EndpointAsWritten | pokemon/models.py:59-61 | as written, every style queries the Shakespeare endpoint |
| Translation.EndpointFor | pokemon/models.py:59-61 | as intended, the Yoda endpoint is used exactly for the Yoda style |
| Translation.GetTranslationAsWritten | pokemon/models.py:54-72 | as written, a text is returned exactly when the Shakespeare reply has a success total below 1 and a translated text, and it is that text |
| Translation.GetTranslation | pokemon/models.py:54-72 | as intended, a translation is returned exactly when the style's endpoint replies reporting success with a translated text, and it is that text |
| Translation.AsWrittenIgnoresStyle | pokemon/models.py:59-65 | as written, the result is the same for both styles |
| Translation.AsWrittenLosesSuccessfulTranslation | pokemon/models.py:66-68 | for an API that always reports success, the code as written returns nothing while the intended operation returns the Yoda text |
| Translation.GetTranslationReadsOnlyItsEndpoint | pokemon/models.py:59-65 | the intended operation depends only on the reply of the style's endpoint |
| Translation.TranslatorOf | pokemon/models.py:185-190 | as intended, the translator built from the corrected `get_translation` answers exactly with the translated text of a successful reply from the style's endpoint |
| Translation.YodaRecordGetsYodaReply | pokemon/models.py:185-186 | through the intended operation, an untranslated Yoda-style record receives a successful Yoda reply's text, and stays untranslated when the request fails |
| Cache.Save | pokemon/models.py:119-124 | the entry under the record's name becomes its stored form; all other entries are unchanged |
| Cache.Get | pokemon/models.py:126-135 | a hit decodes the entry (failing when it is malformed), a miss builds the record remotely; "not found" exactly when the name is absent and the lookup fails |
| Cache.GetAfterSave | pokemon/models.py:124-135 | reading back a saved record gives it with a falsy translation read as None |
| Cache.HitIgnoresRemote | pokemon/models.py:132-135 | a hit depends neither on the species lookup nor on the random choice |
| Cache.ToDictIsCanonical | pokemon/models.py:137-151 | a stored form decodes to a record of the same name and re-encodes to itself |
| Cache.SavePreservesCanonical | pokemon/models.py:124 | saving keeps every entry canonical |
| Cache.CanonicalHit | pokemon/models.py:135 | on a canonical store a hit yields a record named by its key, with no falsy translation, whose save rewrites the same entry |
| Views.SaveAndRespond | pokemon/views.py:20-30 | a found record is saved; the answer is 200 with its response form exactly when the validator accepts it, else 400 with the errors |
| Views.Unfound | pokemon/views.py:13-18 | nothing found answers 404 with "Pokemon not found", a raised error answers 500; the store is unchanged |
| Views.RetrieveView | pokemon/views.py:12-30 | 404 exactly when the name is neither stored nor found remotely, 500 exactly when the lookup raised, store unchanged in both; a found record is saved and answered |
| Views.TranslateView | pokemon/views.py:35-53 | as the retrieve view, with the record translated before it is saved and answered |
| Views.RetrievePreservesCanonical | pokemon/views.py:13-20 | the retrieve view keeps every stored entry canonical |
| Views.TranslatePreservesCanonical | pokemon/views.py:36-43 | the translate view keeps every stored entry canonical |
| Views.RetrieveHitKeepsStore | pokemon/views.py:13-20 | on a canonical store a retrieve hit leaves the store exactly as it was and its answer ignores the lookup and the choice |
| Views.OnlyOneEntryChanges | pokemon/views.py:13-43 | on a canonical store a retrieve hit changes no entry and a translate hit at most the requested one; a miss writes only under the species data's name |
| Views.TranslateViewStoresTranslation | pokemon/views.py:42-43 | a usable translator answer for an untranslated record is stored and shown as the description |
| Views.RetrieveShowsStoredTranslation | pokemon/models.py:153-162 | once a translation is stored for a name, a valid retrieve answers it as the description and keeps the store |
| Views.StoredTranslationIsStable | pokemon/views.py:36-43 | once a translation is stored, the translate view's answer is independent of translator, lookup and choice, shows that translation, and keeps the store |
| Views.SecondRetrieveServedFromCache | pokemon/views.py:13-20 | after a first retrieve fetches and saves a record, a second retrieve is served from the store with the same answer and store |
| Views.SecondTranslateMakesNoRequest | pokemon/views.py:36-43 | after a translate view obtained a translation, a second one answers identically with any translator and lookup |
| Views.PikachuRetrieveScenario | pokemon/tests.py:240-265 | retrieving the test species through an empty store answers its English text and cave habitat and saves it without translation |

## Findings

| source | as written | input that shows it | evidently intended | confidence | as-written member | corrected member |
|---|---|---|---|---|---|---|
| pokemon/models.py:59-61 | the Yoda branch evaluates the Yoda URL and discards it, so every request goes to the Shakespeare endpoint | any record with habitat "cave" or legendary | Yoda-style descriptions are sent to the Yoda endpoint | high, not executed | Translation.AsWrittenIgnoresStyle | Translation.GetTranslationReadsOnlyItsEndpoint |
| pokemon/models.py:66 | the reply is rejected when `success.total` is at least 1, so successful translations are discarded | a reply with `success.total` 1 and a translated text, the shape pokemon/tests.py:77-82 uses | reject replies reporting fewer than one success | high, not executed | Translation.AsWrittenLosesSuccessfulTranslation | Translation.GetTranslation |

The views are stated for any translator. `Translation.TranslatorOf` builds the translator from the
corrected `GetTranslation`, and `Translation.YodaRecordGetsYodaReply` states what the record
receives through it.

## Left out

- The HTTP transport (`make_request`), the Redis client and its connection, and the `json.dumps`/`json.loads`
  text encoding: the remote APIs are oracle parameters and the store holds decoded dictionaries.
- The URL and query-string construction of `get_translation`, including the missing percent-encoding of the text.
- A store that cannot be reached: the model has no store failure, because the source does not handle one either.
- Exceptions other than HTTP errors from the species request (connection errors, malformed JSON).
  The source lets these propagate; the species oracle only answers a body or None.
- Species data that is an empty dictionary (`if not pokemon_details`): the typed species record cannot be empty.
- Python's dynamic typing: stored values of the wrong JSON type are treated as rejected by decoding.
  The source would build a record holding them.
- `pokemon_from_json` mutating an existing instance: it is modelled as building a fresh record, as its callers use it.
  On an existing instance, a missing translation key would keep the old translation.
- The field validation of the response serializer: it is the `Validator` parameter. A successful
  response carries the serialized dictionary itself.
- Logging, settings constants, URL routing, and the test harness and its mocks.
- Species.RetrieveDescription: states which texts can be chosen, not that `random.choice` picks among them uniformly.

=== FILE: cache.dfy ===
/**
  The cache side of pokemon/models.py: `save` writes the stored form under the
  record's name, `get` reads through the cache to the species lookup.
 */
module Cache {
  import opened Wrappers
  import opened Records
  import opened Species

  /** The key-value store: record name to stored dictionary. */
  type Store = map<string, Dict>

  /** `save`: the stored form of the record, under the record's own name; no other entry changes. */
  function Save(store: Store, p: Pokemon): (s: Store)
    ensures s.Keys == store.Keys + {p.name}
    ensures s[p.name] == ToDict(p)
    ensures forall k :: k in store && k != p.name ==> s[k] == store[k]
  {
    store[p.name := ToDict(p)]
  }

  /**
    `get`: on a hit the stored dictionary is decoded (a dictionary the record
    constructor rejects raises); on a miss the record comes from the species
    lookup. The store is only read.
   */
  function Get(store: Store, name: string, species: SpeciesApi, pick: nat): (r: Result<Option<Pokemon>, Failure>)
    ensures name in store ==> (r.Ok? <==> Decode(store[name]).Ok?)
    ensures name in store && r.Ok? ==> r.value == Some(Decode(store[name]).value)
    ensures name !in store ==> r == CreateFromRemote(species, name, pick)
    ensures r == Ok(None) <==> name !in store && species(name).None?
  {
    if name in store then
      match Decode(store[name])
      case Ok(p) => Ok(Some(p))
      case Err(e) => Err(e)
    else
      CreateFromRemote(species, name, pick)
  }

  /** An entry is exactly what `save` writes for a record of that name. */
  predicate CanonicalEntry(key: string, d: Dict) {
    Decode(d).Ok? && Decode(d).value.name == key && ToDict(Decode(d).value) == d
  }

  /** Every entry of the store is one `save` could have written under its key. */
  predicate Canonical(store: Store) {
    forall k :: k in store ==> CanonicalEntry(k, store[k])
  }

  /** Reading back what was saved gives the record, with a falsy translation as None, and needs no lookup. */
  lemma GetAfterSave(store: Store, p: Pokemon, species: SpeciesApi, pick: nat)
    ensures Get(Save(store, p), p.name, species, pick) == Ok(Some(Normalize(p)))
  {
  }

  /** A hit does not depend on the species lookup or on the random choice. */
  lemma HitIgnoresRemote(store: Store, name: string, s1: SpeciesApi, s2: SpeciesApi, pick1: nat, pick2: nat)
    requires name in store
    ensures Get(store, name, s1, pick1) == Get(store, name, s2, pick2)
  {
  }

  /** The stored form of any record is a canonical entry under the record's name. */
  lemma ToDictIsCanonical(p: Pokemon)
    ensures CanonicalEntry(p.name, ToDict(p))
  {
  }

  /** `save` keeps every entry canonical. */
  lemma SavePreservesCanonical(store: Store, p: Pokemon)
    requires Canonical(store)
    ensures Canonical(Save(store, p))
  {
  }

  /**
    On a canonical store a hit yields a record named by the key, whose
    translation is absent or usable, and saving it again rewrites the same entry.
   */
  lemma CanonicalHit(store: Store, name: string, species: SpeciesApi, pick: nat)
    requires Canonical(store) && name in store
    ensures Get(store, name, species, pick).Ok? && Get(store, name, species, pick).value.Some?
    ensures var p := Get(store, name, species, pick).value.value;
      && p.name == name
      && (p.translation.None? || HasTranslation(p))
      && Save(store, p) == store
  {
  }
}

=== FILE: records.dfy ===
/**
  The `Pokemon` record of pokemon/models.py and the two dictionary shapes it is
  written to: the stored form kept in the cache, and the response form returned
  by the views.
 */
module Records {
  import opened Wrappers

  /** The JSON scalars that appear in the stored and response dictionaries. */
  datatype Json = JString(str: string) | JBool(flag: bool) | JNull

  /** A decoded JSON object whose values are scalars. */
  type Dict = map<string, Json>

  const NameKey: string := "name"
  const DescriptionKey: string := "description"
  const HabitatKey: string := "habitat"
  const LegendaryKey: string := "isLegendary"
  const TranslationKey: string := "translation"

  /** The keys every stored and every response dictionary carries. */
  const BaseKeys: set<string> := {NameKey, DescriptionKey, HabitatKey, LegendaryKey}

  /** The habitat that selects the Yoda style on its own. */
  const CaveHabitat: string := "cave"

  /** The exceptions the core raises and does not catch. */
  datatype Failure =
    | NoEnglishDescription   // random.choice on an empty list of English flavour texts
    | NullHabitat            // .get("name") on a null habitat
    | MalformedRecord        // a dictionary the record constructor or decoder rejects

  /** The five fields of the record; `translation` is None until a translation is stored. */
  datatype Pokemon = Pokemon(
    name: string,
    description: string,
    habitat: string,
    isLegendary: bool,
    translation: Option<string>)

  /** Python truthiness of an optional string: both None and "" are falsy. */
  predicate Truthy(s: Option<string>) {
    s.Some? && s.value != ""
  }

  /** The record holds a usable translation. */
  predicate HasTranslation(p: Pokemon) {
    Truthy(p.translation)
  }

  /** The two translation styles. */
  datatype Style = Yoda | Shakespeare

  /** The `is_yoda_translation` property. */
  predicate IsYodaTranslation(p: Pokemon) {
    p.habitat == CaveHabitat || p.isLegendary
  }

  /** The style `translate_description` asks for. */
  function StyleOf(p: Pokemon): (s: Style)
    ensures s == Yoda <==> p.habitat == CaveHabitat || p.isLegendary
    ensures s == Shakespeare <==> p.habitat != CaveHabitat && !p.isLegendary
  {
    if IsYodaTranslation(p) then Yoda else Shakespeare
  }

  /** The style rule reads nothing but the habitat and the legendary flag. */
  lemma StyleDependsOnlyOnHabitatAndLegendary(p: Pokemon, q: Pokemon)
    requires p.habitat == q.habitat && p.isLegendary == q.isLegendary
    ensures StyleOf(p) == StyleOf(q)
    ensures IsYodaTranslation(p) == IsYodaTranslation(q)
  {
  }

  /** The record with a falsy translation replaced by None. */
  function Normalize(p: Pokemon): (q: Pokemon)
    ensures q.translation.None? <==> !HasTranslation(p)
    ensures HasTranslation(p) ==> q == p
    ensures q.(translation := p.translation) == p
  {
    if HasTranslation(p) then p else p.(translation := None)
  }

  /** `pokemon_to_dict`: the stored form of a record. */
  function ToDict(p: Pokemon): (d: Dict)
    ensures d.Keys == if HasTranslation(p) then BaseKeys + {TranslationKey} else BaseKeys
    ensures d[NameKey] == JString(p.name)
    ensures d[DescriptionKey] == JString(p.description)
    ensures d[HabitatKey] == JString(p.habitat)
    ensures d[LegendaryKey] == JBool(p.isLegendary)
    ensures TranslationKey in d ==> d[TranslationKey] == JString(p.translation.value)
  {
    var base := map[
      NameKey := JString(p.name),
      DescriptionKey := JString(p.description),
      HabitatKey := JString(p.habitat),
      LegendaryKey := JBool(p.isLegendary)];
    if HasTranslation(p) then base[TranslationKey := JString(p.translation.value)] else base
  }

  /** The string held under `key`, if there is one. */
  function StringAt(d: Dict, key: string): Option<string> {
    if key in d && d[key].JString? then Some(d[key].str) else None
  }

  /** The optional translation under the translation key: absent or null reads as None. */
  function TranslationAt(d: Dict): Option<Option<string>> {
    if TranslationKey !in d then Some(None)
    else match d[TranslationKey]
      case JString(s) => Some(Some(s))
      case JNull => Some(None)
      case JBool(_) => None
  }

  /** The four required fields are present with the types the record declares. */
  predicate HasRecordFields(d: Dict) {
    && StringAt(d, NameKey).Some?
    && StringAt(d, DescriptionKey).Some?
    && StringAt(d, HabitatKey).Some?
    && LegendaryKey in d && d[LegendaryKey].JBool?
    && TranslationAt(d).Some?
  }

  /** The record a dictionary with the record's fields describes. */
  function RecordOf(d: Dict): Pokemon
    requires HasRecordFields(d)
  {
    Pokemon(
      StringAt(d, NameKey).value,
      StringAt(d, DescriptionKey).value,
      StringAt(d, HabitatKey).value,
      d[LegendaryKey].flag,
      TranslationAt(d).value)
  }

  /**
    `Pokemon(**d)` on the cache-hit path: keyword construction accepts exactly
    the five parameter names, of which `translation` alone is optional.
   */
  function Decode(d: Dict): (r: Result<Pokemon, Failure>)
    ensures r.Ok? <==> d.Keys <= BaseKeys + {TranslationKey} && HasRecordFields(d)
    ensures r.Err? ==> r.error == MalformedRecord
    ensures r.Ok? ==> d[NameKey] == JString(r.value.name) && d[LegendaryKey] == JBool(r.value.isLegendary)
    ensures r.Ok? ==> d[DescriptionKey] == JString(r.value.description) && d[HabitatKey] == JString(r.value.habitat)
    ensures r.Ok? ==>
      r.value.translation == if TranslationKey in d && d[TranslationKey].JString? then Some(d[TranslationKey].str) else None
  {
    if d.Keys <= BaseKeys + {TranslationKey} && HasRecordFields(d) then Ok(RecordOf(d))
    else Err(MalformedRecord)
  }

  /**
    `pokemon_from_json` as a decoder building a fresh record: it reads the four
    required keys, with the legendary flag under `isLegendary` as the method body
    and the stored form have it, takes the translation when its key is present,
    and ignores every other key.
   */
  function FromJson(d: Dict): (r: Result<Pokemon, Failure>)
    ensures r.Ok? <==> HasRecordFields(d)
    ensures r.Err? ==> r.error == MalformedRecord
    ensures r.Ok? ==> d[NameKey] == JString(r.value.name) && d[LegendaryKey] == JBool(r.value.isLegendary)
    ensures r.Ok? ==> d[DescriptionKey] == JString(r.value.description) && d[HabitatKey] == JString(r.value.habitat)
    ensures r.Ok? ==>
      r.value.translation == if TranslationKey in d && d[TranslationKey].JString? then Some(d[TranslationKey].str) else None
  {
    if HasRecordFields(d) then Ok(RecordOf(d)) else Err(MalformedRecord)
  }

  /** `serialize`: the response form, showing the translation in place of the description when there is one. */
  function Serialize(p: Pokemon): (d: Dict)
    ensures d.Keys == BaseKeys
    ensures TranslationKey !in d
    ensures d[DescriptionKey] == JString(if HasTranslation(p) then p.translation.value else p.description)
    ensures d[NameKey] == JString(p.name) && d[HabitatKey] == JString(p.habitat)
    ensures d[LegendaryKey] == JBool(p.isLegendary)
  {
    map[
      NameKey := JString(p.name),
      DescriptionKey := JString(if HasTranslation(p) then p.translation.value else p.description),
      HabitatKey := JString(p.habitat),
      LegendaryKey := JBool(p.isLegendary)]
  }

  /** Decoding the stored form gives back the record, with a falsy translation read as None. */
  lemma DecodeToDict(p: Pokemon)
    ensures Decode(ToDict(p)) == Ok(Normalize(p))
    ensures FromJson(ToDict(p)) == Ok(Normalize(p))
  {
  }

  /** The stored form round-trips exactly unless the translation is the empty string. */
  lemma RoundTrip(p: Pokemon)
    ensures Decode(ToDict(p)) == Ok(p) <==> p.translation != Some("")
    ensures FromJson(ToDict(p)) == Ok(p) <==> p.translation != Some("")
  {
  }

  /** Encoding what was decoded reproduces the dictionary when it is in the form `pokemon_to_dict` writes. */
  lemma ToDictDecode(d: Dict)
    requires Decode(d).Ok?
    ensures ToDict(Decode(d).value) == d <==> (TranslationKey in d ==> Truthy(TranslationAt(d).value))
  {
  }

  /** Where the strict decoder accepts a dictionary, the lenient one reads the same record. */
  lemma DecodersAgree(d: Dict)
    ensures Decode(d).Ok? ==> FromJson(d) == Decode(d)
    ensures FromJson(d).Ok? && d.Keys <= BaseKeys + {TranslationKey} ==> Decode(d) == FromJson(d)
  {
  }

  /** The lenient decoder ignores keys the record does not have. */
  lemma FromJsonIgnoresExtraKeys(d: Dict, extra: string, v: Json)
    requires extra !in BaseKeys + {TranslationKey}
    ensures FromJson(d[extra := v]) == FromJson(d)
  {
  }

  /** The response form is the stored form with the translation moved into the description. */
  lemma SerializeFromToDict(p: Pokemon)
    ensures !HasTranslation(p) ==> Serialize(p) == ToDict(p)
    ensures HasTranslation(p) ==>
      Serialize(p) == (ToDict(p) - {TranslationKey})[DescriptionKey := ToDict(p)[TranslationKey]]
  {
  }

  /**
    The dictionaries the decoder's tests pass carry the legendary flag under
    `is_legendary`; the decoder, like the method body, rejects them.
   */
  lemma FromJsonRejectsSnakeCaseFlag()
    ensures FromJson(map[
      NameKey := JString("Pikachu"),
      DescriptionKey := JString("A cute electric mouse"),
      HabitatKey := JString("cave"),
      "is_legendary" := JBool(false)]).Err?
  {
  }
}

=== FILE: species.dfy ===
/**
  Turning the species data of the remote reference API into a record:
  `retrieve_description`, `create_pokemon`, `get_remote_pokemon` and
  `create_pokemon_from_remote` of pokemon/models.py.
 */
module Species {
  import opened Wrappers
  import opened Records

  /** `POKEMON_LANGUAGE_KEY`: the only language whose flavour texts are used. */
  const LanguageKey: string := "en"

  /** One `flavor_text_entries` item: its language name and its text. */
  datatype FlavorEntry = FlavorEntry(language: string, text: string)

  /** The `habitat` object of the species data; its `name` may be missing or null. */
  datatype Habitat = Habitat(name: Option<string>)

  /** The species data as the remote API returns it; a null or missing `habitat` is None. */
  datatype RawSpecies = RawSpecies(
    name: string,
    flavorTextEntries: seq<FlavorEntry>,
    habitat: Option<Habitat>,
    isLegendary: bool,
    translation: Option<string>)

  /**
    The species lookup: the parsed body for a name, or None when the request
    raised an HTTP error.
   */
  type SpeciesApi = string -> Option<RawSpecies>

  /** The English entries, each as many times as it occurs. */
  function EnglishEntries(entries: seq<FlavorEntry>): (english: seq<FlavorEntry>)
    ensures forall e :: e in english <==> e in entries && e.language == LanguageKey
    ensures forall e :: multiset(english)[e] == if e.language == LanguageKey then multiset(entries)[e] else 0
    ensures |english| <= |entries|
  {
    if entries == [] then []
    else
      var rest := EnglishEntries(entries[1..]);
      assert entries == [entries[0]] + entries[1..];
      if entries[0].language == LanguageKey then [entries[0]] + rest else rest
  }

  /** Some entry is in English. */
  predicate HasEnglishEntry(entries: seq<FlavorEntry>) {
    exists i :: 0 <= i < |entries| && entries[i].language == LanguageKey
  }

  /**
    `retrieve_description`: the text of the English entry that `random.choice`
    picks; the choice is the parameter `pick`, reduced modulo the number of
    English entries.
   */
  function RetrieveDescription(entries: seq<FlavorEntry>, pick: nat): (r: Result<string, Failure>)
    ensures r.Err? <==> !HasEnglishEntry(entries)
    ensures r.Err? ==> r.error == NoEnglishDescription
    ensures r.Ok? ==> exists i :: 0 <= i < |entries| && entries[i].language == LanguageKey && entries[i].text == r.value
  {
    var english := EnglishEntries(entries);
    if |english| == 0 then
      assert forall i | 0 <= i < |entries| :: entries[i] in entries;
      Err(NoEnglishDescription)
    else
      assert english[pick % |english|] in english;
      Ok(english[pick % |english|].text)
  }

  /** A choice below the number of English entries selects the English entry at that position. */
  lemma ChoiceWithinRange(entries: seq<FlavorEntry>, j: nat)
    requires j < |EnglishEntries(entries)|
    ensures RetrieveDescription(entries, j) == Ok(EnglishEntries(entries)[j].text)
  {
    var english := EnglishEntries(entries);
    var n := |english|;
    assert j % n == j by { SmallRemainder(j, n); }
  }

  /** A number below the divisor is its own remainder. */
  lemma SmallRemainder(j: nat, n: nat)
    requires j < n
    ensures j % n == j
  {
  }

  /** Every English text is a possible choice. */
  lemma {:induction false} EveryEnglishTextCanBeChosen(entries: seq<FlavorEntry>, i: nat)
    requires i < |entries| && entries[i].language == LanguageKey
    ensures exists pick: nat :: RetrieveDescription(entries, pick) == Ok(entries[i].text)
  {
    var english := EnglishEntries(entries);
    assert entries[i] in english;
    var j: nat :| j < |english| && english[j] == entries[i];
    ChoiceWithinRange(entries, j);
  }

  /** When all English entries share one text, that text is chosen whatever the pick. */
  lemma {:induction false} SharedEnglishTextIsChosen(entries: seq<FlavorEntry>, t: string, pick: nat)
    requires HasEnglishEntry(entries)
    requires forall i :: 0 <= i < |entries| && entries[i].language == LanguageKey ==> entries[i].text == t
    ensures RetrieveDescription(entries, pick) == Ok(t)
  {
  }

  /** The name of a present habitat object, or "" when that name is falsy. */
  function HabitatName(h: Habitat): (name: string)
    ensures Truthy(h.name) ==> name == h.name.value
    ensures !Truthy(h.name) ==> name == ""
  {
    h.name.GetOr("")
  }

  /**
    `create_pokemon`: the record built field by field from species data. The
    description is chosen first, so a species with no English text fails that
    way even when its habitat is also null.
   */
  function CreatePokemon(raw: RawSpecies, pick: nat): (r: Result<Pokemon, Failure>)
    ensures r.Ok? <==> HasEnglishEntry(raw.flavorTextEntries) && raw.habitat.Some?
    ensures !HasEnglishEntry(raw.flavorTextEntries) ==> r == Err(NoEnglishDescription)
    ensures HasEnglishEntry(raw.flavorTextEntries) && raw.habitat.None? ==> r == Err(NullHabitat)
    ensures r.Ok? ==> r.value.name == raw.name && r.value.isLegendary == raw.isLegendary
    ensures r.Ok? ==> r.value.description == RetrieveDescription(raw.flavorTextEntries, pick).value
    ensures r.Ok? ==> r.value.habitat == HabitatName(raw.habitat.value)
    ensures r.Ok? ==> (r.value.translation == raw.translation <==> Truthy(raw.translation) || raw.translation.None?)
    ensures r.Ok? ==> (HasTranslation(r.value) <==> Truthy(raw.translation))
    ensures r.Ok? ==> r.value.translation.None? || HasTranslation(r.value)
  {
    match RetrieveDescription(raw.flavorTextEntries, pick)
    case Err(e) => Err(e)
    case Ok(description) =>
      match raw.habitat
      case None => Err(NullHabitat)
      case Some(h) =>
        Ok(Pokemon(
          raw.name,
          description,
          HabitatName(h),
          raw.isLegendary,
          if Truthy(raw.translation) then raw.translation else None))
  }

  /** A record built from species data carries an English flavour text as its description. */
  lemma CreatedDescriptionIsEnglish(raw: RawSpecies, pick: nat)
    requires CreatePokemon(raw, pick).Ok?
    ensures exists i :: (0 <= i < |raw.flavorTextEntries|
      && raw.flavorTextEntries[i].language == LanguageKey
      && raw.flavorTextEntries[i].text == CreatePokemon(raw, pick).value.description)
  {
  }

  /**
    `create_pokemon_from_remote` over `get_remote_pokemon`: None when the lookup
    failed, otherwise the record built from the species data.
   */
  function CreateFromRemote(species: SpeciesApi, name: string, pick: nat): (r: Result<Option<Pokemon>, Failure>)
    ensures species(name).None? ==> r == Ok(None)
    ensures species(name).Some? ==> (r.Ok? <==> CreatePokemon(species(name).value, pick).Ok?)
    ensures r.Ok? && r.value.Some? ==> species(name).Some? && CreatePokemon(species(name).value, pick) == Ok(r.value.value)
    ensures r.Err? ==> species(name).Some? && CreatePokemon(species(name).value, pick) == Err(r.error)
  {
    match species(name)
    case None => Ok(None)
    case Some(raw) =>
      match CreatePokemon(raw, pick)
      case Err(e) => Err(e)
      case Ok(p) => Ok(Some(p))
  }

  /** A record found remotely is the one built from the species data looked up under the requested name. */
  lemma FoundRecordComesFromLookup(species: SpeciesApi, name: string, pick: nat)
    requires CreateFromRemote(species, name, pick).Ok? && CreateFromRemote(species, name, pick).value.Some?
    ensures species(name).Some?
    ensures var p := CreateFromRemote(species, name, pick).value.value;
      && p.name == species(name).value.name
      && p.isLegendary == species(name).value.isLegendary
      && exists i :: (0 <= i < |species(name).value.flavorTextEntries|
           && species(name).value.flavorTextEntries[i].language == LanguageKey
           && species(name).value.flavorTextEntries[i].text == p.description)
  {
  }
}

=== FILE: translation.dfy ===
/**
  `translate_description` and `get_translation` of pokemon/models.py.
  The record-level operation is stated over an arbitrary translator oracle;
  `GetTranslation` is the translator the remote API is meant to provide.
 */
module Translation {
  import opened Wrappers
  import opened Records

  /**
    The translation service as the record sees it: the translated text for a
    description in a style, or None when anything went wrong (every exception
    is caught and turned into None).
   */
  type Translator = (string, Style) -> Option<string>

  /**
    `translate_description`: a record that already holds a usable translation
    keeps it; otherwise the translation becomes whatever the translator answers
    for the description in the record's style, None included.
   */
  function TranslateDescription(p: Pokemon, translator: Translator): (q: Pokemon)
    ensures HasTranslation(p) ==> q == p
    ensures !HasTranslation(p) ==> q.translation == translator(p.description, StyleOf(p))
    ensures q.name == p.name && q.description == p.description
    ensures q.habitat == p.habitat && q.isLegendary == p.isLegendary
  {
    if HasTranslation(p) then p
    else p.(translation := translator(p.description, StyleOf(p)))
  }

  /** Once a translation has been obtained, a second call changes nothing, whatever the second translator would answer. */
  lemma TranslateIsIdempotent(p: Pokemon, first: Translator, second: Translator)
    requires HasTranslation(TranslateDescription(p, first))
    ensures TranslateDescription(TranslateDescription(p, first), second) == TranslateDescription(p, first)
  {
  }

  /** A translated record does not consult the translator at all. */
  lemma TranslatedRecordIgnoresTranslator(p: Pokemon, t1: Translator, t2: Translator)
    requires HasTranslation(p)
    ensures TranslateDescription(p, t1) == TranslateDescription(p, t2)
  {
  }

  /** An untranslated record asks exactly one question: its own description in its own style. */
  lemma TranslatorConsultedOnce(p: Pokemon, t1: Translator, t2: Translator)
    requires !HasTranslation(p)
    requires t1(p.description, StyleOf(p)) == t2(p.description, StyleOf(p))
    ensures TranslateDescription(p, t1) == TranslateDescription(p, t2)
  {
  }

  /** Translating never changes which style the record calls for. */
  lemma TranslateKeepsStyle(p: Pokemon, translator: Translator)
    ensures StyleOf(TranslateDescription(p, translator)) == StyleOf(p)
  {
  }

  /** The two translation endpoints. */
  datatype Endpoint = ShakespeareEndpoint | YodaEndpoint

  /**
    The parsed reply of the translation API: `success.total` and
    `contents.translated`, each None when missing.
   */
  datatype Reply = Reply(successTotal: Option<int>, translated: Option<string>)

  /** The translation API: the reply to a request, or None when the request raised. */
  type TranslationApi = (Endpoint, string) -> Option<Reply>

  /** The reply reports at least one successful translation and carries its text. */
  predicate Successful(reply: Reply) {
    reply.successTotal.Some? && reply.successTotal.value >= 1 && reply.translated.Some?
  }

  /** The endpoint `get_translation` queries as written: the Yoda branch assigns nothing. */
  function EndpointAsWritten(style: Style): (e: Endpoint)
    ensures e == ShakespeareEndpoint
  {
    match style
    case Yoda => ShakespeareEndpoint
    case Shakespeare => ShakespeareEndpoint
  }

  /** The endpoint for a style, as the two configured URLs intend. */
  function EndpointFor(style: Style): (e: Endpoint)
    ensures e == YodaEndpoint <==> style == Yoda
  {
    match style
    case Yoda => YodaEndpoint
    case Shakespeare => ShakespeareEndpoint
  }

  /**
    `get_translation` as written: the Shakespeare endpoint for every style, and
    a reply rejected when it reports one or more successes, or lacks the total
    or the translated text.
   */
  function GetTranslationAsWritten(api: TranslationApi, text: string, style: Style): (r: Option<string>)
    ensures r.Some? ==> api(ShakespeareEndpoint, text).Some? && !Successful(api(ShakespeareEndpoint, text).value)
    ensures var rep := api(ShakespeareEndpoint, text);
      r.Some? <==> rep.Some? && rep.value.successTotal.Some? && rep.value.successTotal.value < 1 && rep.value.translated.Some?
    ensures r.Some? ==> r == api(ShakespeareEndpoint, text).value.translated
  {
    match api(EndpointAsWritten(style), text)
    case None => None
    case Some(reply) =>
      if reply.successTotal.None? then None
      else if !(reply.successTotal.value < 1) then None
      else reply.translated
  }

  /** `get_translation` as intended: the style's own endpoint, and a reply accepted when it reports success. */
  function GetTranslation(api: TranslationApi, text: string, style: Style): (r: Option<string>)
    ensures r.Some? <==> api(EndpointFor(style), text).Some? && Successful(api(EndpointFor(style), text).value)
    ensures r.Some? ==> r.value == api(EndpointFor(style), text).value.translated.value
  {
    match api(EndpointFor(style), text)
    case None => None
    case Some(reply) =>
      if reply.successTotal.None? then None
      else if reply.successTotal.value < 1 then None
      else reply.translated
  }

  /** As written, the style makes no difference to the request or its result. */
  lemma AsWrittenIgnoresStyle(api: TranslationApi, text: string)
    ensures GetTranslationAsWritten(api, text, Yoda) == GetTranslationAsWritten(api, text, Shakespeare)
  {
  }

  /** A reply reporting one success, the shape the translation API answers with. */
  function SuccessReply(translated: string): Reply {
    Reply(Some(1), Some(translated))
  }

  /**
    With an API that answers every request successfully, the code as written
    returns no translation, while the intended operation returns the Yoda text
    for the Yoda style.
   */
  lemma AsWrittenLosesSuccessfulTranslation()
    ensures
      var api: TranslationApi := (e: Endpoint, t: string) =>
        Some(SuccessReply(if e == YodaEndpoint then "yoda text" else "shakespeare text"));
      && GetTranslationAsWritten(api, "description", Yoda) == None
      && GetTranslation(api, "description", Yoda) == Some("yoda text")
  {
  }

  /** The intended operation reads only the reply of the style's endpoint. */
  lemma GetTranslationReadsOnlyItsEndpoint(a1: TranslationApi, a2: TranslationApi, text: string, style: Style)
    requires a1(EndpointFor(style), text) == a2(EndpointFor(style), text)
    ensures GetTranslation(a1, text, style) == GetTranslation(a2, text, style)
  {
  }

  /** The translator the remote API provides when `get_translation` works as intended. */
  function TranslatorOf(api: TranslationApi): (t: Translator)
    ensures forall text: string, style: Style :: t(text, style).Some? ==>
      api(EndpointFor(style), text).Some? && Successful(api(EndpointFor(style), text).value)
      && t(text, style) == api(EndpointFor(style), text).value.translated
    ensures forall text: string, style: Style ::
      api(EndpointFor(style), text).Some? && Successful(api(EndpointFor(style), text).value) ==>
      t(text, style) == api(EndpointFor(style), text).value.translated
  {
    (text: string, style: Style) => GetTranslation(api, text, style)
  }

  /**
    Through the intended operation, an untranslated Yoda-style record receives
    the text of a successful Yoda reply, and a failed reply leaves it untranslated.
   */
  lemma YodaRecordGetsYodaReply(p: Pokemon, api: TranslationApi)
    requires !HasTranslation(p) && IsYodaTranslation(p)
    ensures api(YodaEndpoint, p.description).Some? && Successful(api(YodaEndpoint, p.description).value) ==>
      TranslateDescription(p, TranslatorOf(api)).translation == api(YodaEndpoint, p.description).value.translated
    ensures api(YodaEndpoint, p.description).None? ==> TranslateDescription(p, TranslatorOf(api)).translation.None?
  {
  }
}

=== FILE: views.dfy ===
/**
  `PokemonRetrieveView.get` and `PokemonTranslateView.get` of pokemon/views.py
  as transitions over the store: each request yields a response and the store
  after it.
 */
module Views {
  import opened Wrappers
  import opened Records
  import opened Species
  import opened Translation
  import opened Cache

  const StatusOk: int := 200
  const StatusBadRequest: int := 400
  const StatusNotFound: int := 404
  const StatusServerError: int := 500

  /** The `detail` text of the not-found response. */
  const NotFoundMessage: string := "Pokemon not found"

  /**
    A response body: the not-found detail, the serialized record, the
    serializer's errors, or the error an uncaught exception turns into.
   */
  datatype Body = Detail(message: string) | Data(fields: Dict) | ValidationErrors | ServerError(failure: Failure)

  datatype Response = Response(status: int, body: Body)

  /** What one request answers and the store it leaves behind. */
  datatype Outcome = Outcome(response: Response, store: Store)

  /** The serializer's verdict on the response dictionary. */
  type Validator = Dict -> bool

  /** The answer for a found record: save it, then answer its response form or the serializer's errors. */
  function SaveAndRespond(store: Store, p: Pokemon, valid: Validator): (o: Outcome)
    ensures o.store == Save(store, p)
    ensures o.response.status == StatusOk <==> valid(Serialize(p))
    ensures o.response.status == StatusOk ==> o.response.body == Data(Serialize(p))
    ensures o.response.status != StatusOk ==> o.response == Response(StatusBadRequest, ValidationErrors)
  {
    var body := Serialize(p);
    var saved := Save(store, p);
    if valid(body) then Outcome(Response(StatusOk, Data(body)), saved)
    else Outcome(Response(StatusBadRequest, ValidationErrors), saved)
  }

  /** The answer when the lookup found nothing or raised: the store is left alone. */
  function Unfound(store: Store, r: Result<Option<Pokemon>, Failure>): (o: Outcome)
    requires !(r.Ok? && r.value.Some?)
    ensures o.store == store
    ensures r.Ok? ==> o.response == Response(StatusNotFound, Detail(NotFoundMessage))
    ensures r.Err? ==> o.response == Response(StatusServerError, ServerError(r.error))
  {
    match r
    case Ok(_) => Outcome(Response(StatusNotFound, Detail(NotFoundMessage)), store)
    case Err(e) => Outcome(Response(StatusServerError, ServerError(e)), store)
  }

  /** `PokemonRetrieveView.get`: look the record up, save it even on a hit, answer its response form. */
  function RetrieveView(store: Store, name: string, species: SpeciesApi, pick: nat, valid: Validator): (o: Outcome)
    ensures o.response.status == StatusNotFound <==> name !in store && species(name).None?
    ensures o.response.status == StatusNotFound ==> o.response.body == Detail(NotFoundMessage)
    ensures o.response.status == StatusServerError <==> Get(store, name, species, pick).Err?
    ensures o.response.status !in {StatusOk, StatusBadRequest} ==> o.store == store
    ensures o.response.status in {StatusOk, StatusBadRequest, StatusNotFound, StatusServerError}
    ensures var g := Get(store, name, species, pick);
      g.Ok? && g.value.Some? ==> o == SaveAndRespond(store, g.value.value, valid)
  {
    var g := Get(store, name, species, pick);
    if g.Ok? && g.value.Some? then SaveAndRespond(store, g.value.value, valid)
    else Unfound(store, g)
  }

  /** `PokemonTranslateView.get`: as the retrieve view, with the record translated before it is saved. */
  function TranslateView(store: Store, name: string, species: SpeciesApi, pick: nat, translator: Translator, valid: Validator): (o: Outcome)
    ensures o.response.status == StatusNotFound <==> name !in store && species(name).None?
    ensures o.response.status == StatusNotFound ==> o.response.body == Detail(NotFoundMessage)
    ensures o.response.status == StatusServerError <==> Get(store, name, species, pick).Err?
    ensures o.response.status !in {StatusOk, StatusBadRequest} ==> o.store == store
    ensures o.response.status in {StatusOk, StatusBadRequest, StatusNotFound, StatusServerError}
    ensures var g := Get(store, name, species, pick);
      g.Ok? && g.value.Some? ==> o == SaveAndRespond(store, TranslateDescription(g.value.value, translator), valid)
  {
    var g := Get(store, name, species, pick);
    if g.Ok? && g.value.Some? then SaveAndRespond(store, TranslateDescription(g.value.value, translator), valid)
    else Unfound(store, g)
  }

  /** The retrieve view keeps every stored entry canonical. */
  lemma RetrievePreservesCanonical(store: Store, name: string, species: SpeciesApi, pick: nat, valid: Validator)
    requires Canonical(store)
    ensures Canonical(RetrieveView(store, name, species, pick, valid).store)
  {
    var g := Get(store, name, species, pick);
    if g.Ok? && g.value.Some? {
      SavePreservesCanonical(store, g.value.value);
    }
  }

  /** The translate view keeps every stored entry canonical. */
  lemma TranslatePreservesCanonical(store: Store, name: string, species: SpeciesApi, pick: nat, translator: Translator, valid: Validator)
    requires Canonical(store)
    ensures Canonical(TranslateView(store, name, species, pick, translator, valid).store)
  {
    var g := Get(store, name, species, pick);
    if g.Ok? && g.value.Some? {
      SavePreservesCanonical(store, TranslateDescription(g.value.value, translator));
    }
  }

  /**
    On a canonical store a retrieve-view hit rewrites exactly the entry it read,
    so the stored translation is never altered, and the answer depends on
    neither the species lookup nor the random choice.
   */
  lemma RetrieveHitKeepsStore(store: Store, name: string, s1: SpeciesApi, s2: SpeciesApi, pick1: nat, pick2: nat, valid: Validator)
    requires Canonical(store) && name in store
    ensures RetrieveView(store, name, s1, pick1, valid).store == store
    ensures RetrieveView(store, name, s1, pick1, valid) == RetrieveView(store, name, s2, pick2, valid)
  {
    CanonicalHit(store, name, s1, pick1);
    HitIgnoresRemote(store, name, s1, s2, pick1, pick2);
  }

  /**
    Only one entry changes: on a canonical store a retrieve-view hit changes
    none and a translate-view hit changes only `store[name]`; a miss writes only
    under the name the species data carries.
   */
  lemma OnlyOneEntryChanges(store: Store, name: string, species: SpeciesApi, pick: nat, translator: Translator, valid: Validator)
    requires Canonical(store)
    ensures name in store ==> forall k :: k != name && k in store ==>
      k in TranslateView(store, name, species, pick, translator, valid).store
      && TranslateView(store, name, species, pick, translator, valid).store[k] == store[k]
    ensures name in store ==> TranslateView(store, name, species, pick, translator, valid).store.Keys == store.Keys
    ensures name in store ==> RetrieveView(store, name, species, pick, valid).store == store
    ensures name !in store && species(name).Some? ==>
      var key := species(name).value.name;
      && RetrieveView(store, name, species, pick, valid).store.Keys <= store.Keys + {key}
      && TranslateView(store, name, species, pick, translator, valid).store.Keys <= store.Keys + {key}
      && (forall k :: k != key && k in store ==>
            RetrieveView(store, name, species, pick, valid).store[k] == store[k]
            && TranslateView(store, name, species, pick, translator, valid).store[k] == store[k])
  {
    if name in store {
      CanonicalHit(store, name, species, pick);
      RetrieveHitKeepsStore(store, name, species, species, pick, pick, valid);
    }
  }

  /**
    The translate view translates before it saves: for an untranslated record
    and a usable translator answer, the stored entry holds that translation and
    a valid response shows it as the description.
   */
  lemma TranslateViewStoresTranslation(store: Store, name: string, species: SpeciesApi, pick: nat, translator: Translator, valid: Validator)
    requires Get(store, name, species, pick).Ok? && Get(store, name, species, pick).value.Some?
    requires var p := Get(store, name, species, pick).value.value;
      !HasTranslation(p) && Truthy(translator(p.description, StyleOf(p)))
    ensures
      var p := Get(store, name, species, pick).value.value;
      var t := translator(p.description, StyleOf(p)).value;
      var o := TranslateView(store, name, species, pick, translator, valid);
      && o.store[p.name][TranslationKey] == JString(t)
      && (o.response.status == StatusOk ==> o.response.body.fields[DescriptionKey] == JString(t))
  {
  }

  /**
    Once a translation is stored for a name, the translate view asks for no
    translation and no species data: any translator, lookup and choice give the
    same answer, the stored translation as description, and the store unchanged.
   */
  lemma StoredTranslationIsStable(store: Store, name: string, s1: SpeciesApi, s2: SpeciesApi, pick1: nat, pick2: nat,
                                  t1: Translator, t2: Translator, valid: Validator)
    requires Canonical(store) && name in store && TranslationKey in store[name]
    ensures TranslateView(store, name, s1, pick1, t1, valid) == TranslateView(store, name, s2, pick2, t2, valid)
    ensures TranslateView(store, name, s1, pick1, t1, valid).store == store
    ensures var o := TranslateView(store, name, s1, pick1, t1, valid);
      o.response.status == StatusOk ==> o.response.body.fields[DescriptionKey] == store[name][TranslationKey]
  {
    CanonicalHit(store, name, s1, pick1);
    HitIgnoresRemote(store, name, s1, s2, pick1, pick2);
    var p := Get(store, name, s1, pick1).value.value;
    assert HasTranslation(p);
    TranslatedRecordIgnoresTranslator(p, t1, t2);
  }

  /**
    The plain retrieve view also shows a stored translation: once a translate
    request has stored one for a name, a valid retrieve answers it as the
    description and leaves the store unchanged.
   */
  lemma RetrieveShowsStoredTranslation(store: Store, name: string, species: SpeciesApi, pick: nat, valid: Validator)
    requires Canonical(store) && name in store && TranslationKey in store[name]
    ensures var o := RetrieveView(store, name, species, pick, valid);
      && o.store == store
      && (o.response.status == StatusOk ==> o.response.body.fields[DescriptionKey] == store[name][TranslationKey])
  {
    CanonicalHit(store, name, species, pick);
    var p := Get(store, name, species, pick).value.value;
    assert HasTranslation(p);
  }

  /**
    The cache scenario: a first retrieve of a name the store lacks, whose
    species data carries that same name, fetches and saves the record; a second
    retrieve is served from the store whatever the lookup would now answer,
    gives the same response and leaves the store as the first left it.
   */
  lemma SecondRetrieveServedFromCache(store: Store, name: string, species: SpeciesApi, pick: nat,
                                      later: SpeciesApi, laterPick: nat, valid: Validator)
    requires name !in store
    requires species(name).Some? && species(name).value.name == name
    requires CreatePokemon(species(name).value, pick).Ok?
    ensures var first := RetrieveView(store, name, species, pick, valid);
      && first.store == store[name := ToDict(CreatePokemon(species(name).value, pick).value)]
      && RetrieveView(first.store, name, later, laterPick, valid) == first
  {
    var p := CreatePokemon(species(name).value, pick).value;
    var first := RetrieveView(store, name, species, pick, valid);
    assert first.store == Save(store, p);
    GetAfterSave(store, p, later, laterPick);
    assert Normalize(p) == p;
    assert Save(first.store, p) == first.store;
  }

  /**
    A translate view whose translator answered with a usable text leaves the
    record translated: a second translate view for that name returns the same
    response with any translator and lookup, and rewrites the same entry.
   */
  lemma SecondTranslateMakesNoRequest(store: Store, name: string, species: SpeciesApi, pick: nat, translator: Translator,
                                      later: SpeciesApi, laterPick: nat, laterTranslator: Translator, valid: Validator)
    requires Get(store, name, species, pick).Ok? && Get(store, name, species, pick).value.Some?
    requires Get(store, name, species, pick).value.value.name == name
    requires HasTranslation(TranslateDescription(Get(store, name, species, pick).value.value, translator))
    ensures var first := TranslateView(store, name, species, pick, translator, valid);
      TranslateView(first.store, name, later, laterPick, laterTranslator, valid) == first
  {
    var p := TranslateDescription(Get(store, name, species, pick).value.value, translator);
    var first := TranslateView(store, name, species, pick, translator, valid);
    assert first.store == Save(store, p);
    GetAfterSave(store, p, later, laterPick);
    assert Normalize(p) == p;
    TranslatedRecordIgnoresTranslator(p, laterTranslator, translator);
    assert Save(first.store, p) == first.store;
  }

  /** The species data of the record-creation tests: one English and one Spanish text, a cave habitat. */
  function PikachuSpecies(): RawSpecies {
    RawSpecies(
      "Pikachu",
      [FlavorEntry("en", "A cute electric mouse"), FlavorEntry("es", "Un raton electrico adorable")],
      Some(Habitat(Some("cave"))),
      false,
      None)
  }

  /**
    Retrieving that species through an empty store answers its English text and
    cave habitat with no translation, and saves it under its name.
   */
  lemma PikachuRetrieveScenario(pick: nat)
    ensures
      var species: SpeciesApi := (n: string) => if n == "Pikachu" then Some(PikachuSpecies()) else None;
      var o := RetrieveView(map[], "Pikachu", species, pick, (d: Dict) => true);
      && o.response == Response(StatusOk, Data(map[
           NameKey := JString("Pikachu"),
           DescriptionKey := JString("A cute electric mouse"),
           HabitatKey := JString("cave"),
           LegendaryKey := JBool(false)]))
      && o.store.Keys == {"Pikachu"}
      && TranslationKey !in o.store["Pikachu"]
  {
  }
}

=== FILE: wrappers.dfy ===
/** Failure-carrying values shared by the other modules. */
module Wrappers {

  /** A value that may be absent: Python's `None` versus a present value. */
  datatype Option<+T> = None | Some(value: T) {

    /** The present value, or `default` when absent. */
    function GetOr(default: T): T {
      match this
      case Some(v) => v
      case None => default
    }
  }

  /** The outcome of an operation that may raise: a value, or the error it raised. */
  datatype Result<+T, +E> = Ok(value: T) | Err(error: E)
}
